=== FILE: README.md ===
# Dataset split and materialisation, in Dafny

This project models the one piece of real logic in the `smarter` training
pipeline: preparing an annotated image pool for an object-detection trainer
(`src/utils.py`).

- `get_split_data` globs an image directory for `*.jpg` and an annotation
  directory for `*.txt`. It pairs the two lists by position with `zip`,
  shuffles the pairs with `random.shuffle`, and cuts the result into three
  consecutive slices. `train` gets the first `int(n * 0.6)` pairs, `val` the
  next `int(n * 0.2)`, and `test` everything that is left.
- `copy_files` creates an image directory and a label directory
  (`os.makedirs(..., exist_ok=True)`). It then copies each pair's image into
  the first and its label into the second with `shutil.copy`.

The model has three modules, one per concern:

- `Paths` (`paths.dfy`) covers `posixpath.basename`, `posixpath.join` for one
  component, and the `*<ext>` glob over a directory listing. Paths are plain
  strings.
- `Splitting` (`splitting.dfy`) covers `SPLIT_RATIOS` as exact fractions,
  positional pairing (`Zip`), the shuffle, the three-way cut (`Partition`) and
  `GetSplitData`, which chains them as the source does.
- `Files` (`files.dfy`) models the file system as an immutable value: a set
  of directory paths plus a map from file path to contents. It covers
  `MakeDirs`, the resolution of `shutil.copy(src, dir)` to a destination file
  (`Resolve`), one `Copy`, a `Run` of copies that stops at the first error,
  and `CopyFiles`. Python exceptions become a `Failed` outcome that keeps
  whatever was already written, because the source does no rollback.

Behaviour of the code that the model keeps on purpose:

- Pairing is by position only; file stems are never compared. Extra images or
  labels beyond the shorter list are dropped without notice. `glob` does not
  sort, so the pairing depends on the order the operating system lists the
  directories in. That listing order is a parameter of `GetSplitData`.
- `src/utils.py` sets no random seed. The shuffle is therefore modelled as an
  arbitrary permutation (CPython's Fisher-Yates pass with each swap index
  chosen freely). No determinism is claimed.
- The source computes `int(len(data_pairs) * 0.6)` and
  `int(len(data_pairs) * 0.2)` in floating point. The model uses the exact
  fractions 3/5 and 1/5 with integer division.
- `SPLIT_RATIOS["test"]` is never read. The test slice is whatever remains
  after train and val.

## Model

| member | source | states |
|---|---|---|
| Splitting.RatiosSumToOne | src/utils.py:10 | the three split ratios 3/5, 1/5, 1/5 share a denominator and add up to one |
| Paths.Glob | src/utils.py:65-66 | the result is never longer than the listing; every listed name that is not hidden and ends with the extension appears as `dir/name`, and every result is such a name |
| Paths.GlobOne | src/utils.py:65-66 | a one-name listing yields `dir/name` when the name is not hidden and ends with the extension, and nothing otherwise |
| Paths.GlobAppend | src/utils.py:65-66 | glob keeps the listing order: the glob of a concatenated listing is the concatenation of the globs, so matches are neither sorted nor repeated |
| Splitting.Pool | src/utils.py:65-69 | the positional pairing of the two glob results is no longer than either directory listing |
| Splitting.PoolMatchesPatterns | src/utils.py:65-69 | every pair in the pool is a listed, non-hidden `*.jpg` of the image directory and a listed, non-hidden `*.txt` of the annotation directory |
| Splitting.Zip | src/utils.py:69 | the pair list has length min(#images, #labels), and pair i is (images[i], labels[i]) |
| Splitting.UnzipZip | src/utils.py:69 | unzipping the pairs gives back both input lists cut to the shorter length, so the only loss is the tail of the longer list |
| Splitting.ZipDistinct | src/utils.py:69 | distinct image paths give distinct pairs, so pairing never duplicates a sample |
| Splitting.Shuffle | src/utils.py:70 | the shuffled list has the same length and the same multiset as its input; lists of length 0 or 1 come back unchanged |
| Splitting.Truncate | src/utils.py:73-74 | int(n * ratio) is the largest k with k * den <= n * num |
| Splitting.CutPointsInRange | src/utils.py:73-74 | train_idx + int(n * 0.2) <= n, so 0 <= train_idx <= val_idx <= n and all three slices are well defined |
| Splitting.Partition | src/utils.py:73-80 | train ++ val ++ test is the shuffled list exactly; train has int(n * 0.6) pairs, val has int(n * 0.2), and test has the rest |
| Splitting.PartitionUnique | src/utils.py:76-80 | any three lists with that concatenation and those sizes are the Partition, so the contract pins the slices down |
| Splitting.PartitionCounts | src/utils.py:76-80 | for every pair, its occurrences in train, val and test add up to its occurrences in the pool: no duplication, no omission |
| Splitting.PartitionDisjoint | src/utils.py:76-80 | over distinct pairs, a pair is in the pool iff it is in one of the slices, and no pair is in two slices |
| Splitting.SliceOccupancy | src/utils.py:73-79 | train is empty iff n <= 1, val is empty iff n < 5, test is empty iff n = 0 |
| Splitting.TestTakesRemainder | src/utils.py:73-79 | the truncation remainder lands in test: its size lies between int(n * 0.2) and int(n * 0.2) + 2 |
| Splitting.EmptyPool | src/utils.py:73-80 | an empty pool gives three empty slices, with no error |
| Splitting.SinglePair | src/utils.py:73-80 | a pool of one pair puts it in test and leaves train and val empty |
| Splitting.TenPairs | src/utils.py:73-80 | ten pairs split 6 / 2 / 2, in list order |
| Splitting.GetSplitData | src/utils.py:63-80 | the three slices together are a permutation of the positional pairing of the globbed lists, with the truncated sizes; with at most one pair, everything is in test and in order |
| Paths.NameStart | src/utils.py:88-89 | the start of the basename lies within the path (its relation to the last '/' is NameStartAfterLastSlash) |
| Paths.Basename | src/utils.py:88-89 | posixpath.basename is never longer than the path (it is characterised by BasenameIsLastComponent and SlashFreeSuffixIsBasename) |
| Paths.Join | src/utils.py:88-89 | posixpath.join gives a path at least as long as the name it appends (that the name ends the path is JoinEndsWithName, and the round trip is BasenameOfJoin) |
| Paths.NameStartAfterLastSlash | src/utils.py:88-89 | the index where the basename starts follows the last '/' of the path, and no '/' comes after it |
| Paths.BasenameIsLastComponent | src/utils.py:88-89 | the basename has no '/', ends the path, and is preceded by '/' unless it is the whole path |
| Paths.SlashFreeSuffixIsBasename | src/utils.py:88-89 | any slash-free suffix preceded by '/' or by nothing is the basename, so the basename is unique |
| Paths.JoinEndsWithName | src/utils.py:88-89 | joining a slash-free name onto a directory ends the path with that name after a '/', and gives the bare name exactly when the directory is empty |
| Paths.BasenameOfJoin | src/utils.py:88-89 | the basename of dir joined with a slash-free name is that name (join and basename round-trip) |
| Paths.JoinInjective | src/utils.py:88-89 | two slash-free names joined onto the same directory collide iff they are equal |
| Paths.BasenameOfJoinBasename | src/utils.py:88-89 | copying a file into a directory keeps its basename |
| Files.DirChain | src/utils.py:85-86 | the directories makedirs creates for a path are exactly the path itself and its prefixes that end just before a '/' (and not just after another '/') |
| Files.MakeDirs | src/utils.py:85-86 | makedirs succeeds iff the path is non-empty and neither it nor an ancestor is a regular file; on success the directory and its whole ancestor chain exist, the earlier directories remain and nothing outside the chain is added; files never change |
| Files.Copy | src/utils.py:88-89 | with the destination's parent directory present, a copy succeeds iff the source is a file, differs from the destination and the destination is not a directory; the destination then holds the source's contents, every other path is unchanged, and a failure changes nothing and reports SameFile (source equals destination), CannotOpen (missing source) or IsADirectory (destination is a directory) as shutil does |
| Files.Run | src/utils.py:87-89 | a run of copies never changes directories or any path it does not write; on success the file set is the old one plus every destination |
| Files.RunLastWriterWins | src/utils.py:87-89 | when no earlier copy wrote over its source, the last copy to a path leaves there the original contents of that source |
| Files.RunPrefixDone | src/utils.py:87-89 | a loop that completes has completed every earlier part of itself, and the rest ran from the state that part left |
| Files.RunLastCopyDecides | src/utils.py:87-89 | in general, the last copy to a path leaves there what its source held just before that copy ran, and every copy before it succeeded |
| Files.RunAppend | src/utils.py:87-89 | the loop runs copies in order and stops at the first failure: a run of two parts is the first part followed by the second from where the first left off, and a failure in the first part ends the run with its error and its partial writes, with no rollback |
| Files.RunSucceedsIff | src/utils.py:87-89 | when no copy reads a path any copy writes, the run succeeds iff every source exists and no destination is a directory |
| Files.Resolve | src/utils.py:88-89 | shutil.copy(src, dir) reads `src` and writes a path at least as long as the source's basename (that the basename is kept exactly is ResolveKeepsName) |
| Files.ResolveKeepsName | src/utils.py:88-89 | shutil.copy into a directory reads the given source and writes a file with the source's basename |
| Files.Calls | src/utils.py:87-89 | the loop makes two shutil.copy calls per pair, each into the image directory or the label directory |
| Files.CallsShape | src/utils.py:87-89 | the loop makes two shutil.copy calls per pair in pair order: call 2i is pair i's image into the image directory, call 2i + 1 its label into the label directory |
| Files.PlanShape | src/utils.py:87-89 | resolved, copy 2i writes pair i's image to the image directory under its basename and copy 2i + 1 its label to the label directory |
| Files.CopyPlan | src/utils.py:87-89 | resolving the loop's calls gives one copy per call, reading the same sources in the same order |
| Files.PlanEntry | src/utils.py:87-89 | each copy of the loop belongs to one pair: an even copy to that pair's image, an odd one to its label |
| Files.PlanTargets | src/utils.py:87-89 | the paths the loop writes are exactly the image destinations and the label destinations of the pairs |
| Files.CopyFiles | src/utils.py:84-89 | copy_files adds no directory beyond the two makedirs chains and removes none; after it succeeds both directories exist; every image has an entry under its basename in the image directory and every label in the label directory; no other path changes, even when a copy fails midway |
| Files.Prepared | src/utils.py:85-86 | the two makedirs calls leave every file as it was |
| Files.CopyFilesIsRun | src/utils.py:84-89 | a successful copy_files is the copy loop run on the file system the two makedirs calls left |
| Files.CopyFilesSucceedsIff | src/utils.py:84-89 | when no source lies at a destination, copy_files succeeds iff both directories can be created, every image and label exists, and no destination is taken by a directory |
| Files.LaterImagesElsewhere | src/utils.py:87-88 | when later pairs' images have other basenames and no label lands on pair k's image destination, no copy after pair k's image copy writes there |
| Files.LaterLabelsElsewhere | src/utils.py:87-89 | the same for pair k's label destination: no later copy writes there |
| Files.EarlierCopiesAvoid | src/utils.py:87-89 | when no earlier pair's destinations hit a path, no copy before pair k's image copy (or its label copy) writes to that path |
| Files.PlanImageWins | src/utils.py:87-88 | in a successful copy loop, pair k's image destination ends up with pair k's image when no later image shares its basename, no label lands there, and no earlier copy wrote over that image |
| Files.PlanLabelWins | src/utils.py:87-89 | the same for pair k's label destination and pair k's label |
| Files.LaterImageWins | src/utils.py:87-88 | a later pair whose image has the same basename overwrites an earlier one: the image destination holds the last such image's contents |
| Files.LaterLabelWins | src/utils.py:87-89 | the same for labels: the label destination holds the contents of the last label with that basename |

## Left out

- `download_dataset` and `export_annotations` (`src/utils.py`) are left out. They are calls into the dataset service's SDK.
- `extract_annotations` is left out. It only finds a zip archive, extracts it, deletes it and prints the extracted files.
- `src/PicselliaClient.py`, `src/picsellia_resources/picsellia_client.py` and `src/main.py` are left out. They wrap the remote service client, and their label-map comprehension only re-indexes an SDK result.
- `src/PicselliaLogger.py` is left out. It holds trainer callbacks that forward float metrics to a remote experiment log.
- `src/inference.py` is left out. It loads the trained model, captures from a webcam or video, and parses command-line arguments.
- The floating-point products `n * 0.6` and `n * 0.2` are left out. They are replaced by the exact fractions 3/5 and 1/5.
- Randomness and seeding are left out. Each Fisher-Yates swap index is a free choice, and no seed exists in the code.
- Splitting.Shuffle: states only that the result is a permutation. It does not state which permutations CPython's pass can reach (all of them) or their probabilities, since the random generator is not modelled.
- Paths.Glob: the directory listing and its order are a parameter, because they come from the operating system. Two cases are not modelled: glob metacharacters inside the directory name, and glob's normalisation of a directory ending in '/'. The model reports every match as `dir + "/" + name`.
- Path aliasing is not modelled. `.`, `..`, repeated slashes, symbolic links and hard links are not resolved, and `shutil`'s same-file test compares path strings instead of inodes. A source that is a directory fails as `CannotOpen`, where Python raises `IsADirectoryError`.
- `shutil.copy` also copies permission bits, and `copyfile` has special handling for named pipes. Neither is modelled: file contents are the only file attribute.
- Files.Copy: assumes the destination's parent directory exists. shutil.copyfile also fails when it does not, and the model does not check it. Inside copy_files every copy targets a directory that makedirs has just created, so the case does not arise there.
- `os.makedirs` permissions, modes and races with other processes are not modelled. The directories it creates are the path itself and its prefixes that end just before a '/' and do not themselves end in '/'.
- Files.LaterImageWins: assumes no earlier copy wrote over the image's source path and no label lands on the same destination. Without those assumptions the contents depend on the exact interleaving.
- Files.LaterLabelWins: assumes the same as Files.LaterImageWins, for the label.
- Files.CopyFilesSucceedsIff: assumes that no source path is also a destination of the same call. Otherwise a copy can read a file that an earlier copy in the same loop wrote.

=== FILE: files.dfy ===
/**
 Materialising one split on disk (`copy_files`): create the image and label
 destination directories, then copy each pair's image into the first and its
 label into the second, pair by pair.

 The file system is an immutable value: a set of directory paths and a map
 from file paths to their contents. `shutil.copy(src, dir)` writes the
 contents of `src` to `dir` joined with the basename of `src`.
 */
module Files {
  import opened Paths
  import opened Splitting

  type Bytes = seq<bv8>

  datatype FileSystem = FileSystem(dirs: set<Path>, files: map<Path, Bytes>)

  /** The OSError kinds that the copy step can raise. */
  datatype IoError =
    | CannotCreateDir(path: Path)   // os.makedirs: empty path, or the path or an ancestor is a regular file
    | CannotOpen(path: Path)        // the source does not exist or is not a regular file
    | SameFile(path: Path)          // shutil.SameFileError: source and destination are one file
    | IsADirectory(path: Path)      // the destination name is taken by a directory

  /**
   The file system after an operation. An error aborts the operation but keeps
   whatever it had already written: there is no rollback.
   */
  datatype Outcome = Done(fs: FileSystem) | Failed(fs: FileSystem, error: IoError)

  /** Path `p` is present with the same contents in both maps, or absent from both. */
  predicate SameEntry(a: map<Path, Bytes>, b: map<Path, Bytes>, p: Path) {
    (p in a <==> p in b) && (p in a ==> a[p] == b[p])
  }

  /**
   The directories os.makedirs(d) brings into existence: `d` itself and every
   ancestor, an ancestor being a prefix of `d` that ends just before a '/'.
   */
  function DirChain(d: Path): (r: set<Path>)
    ensures d in r
    ensures forall a :: a in r ==> |a| <= |d| && a == d[..|a|]
    ensures forall a :: a in r && a != d ==> 0 < |a| < |d| && d[|a|] == '/' && d[|a| - 1] != '/'
    ensures forall i :: 0 < i < |d| && d[i] == '/' && d[i - 1] != '/' ==> d[..i] in r
  {
    {d} + set i | 0 < i < |d| && d[i] == '/' && d[i - 1] != '/' :: d[..i]
  }

  /** os.makedirs(d, exist_ok=True). */
  function MakeDirs(fs: FileSystem, d: Path): (r: Outcome)
    ensures r.fs.files == fs.files
    ensures r.Done? <==> |d| > 0 && DirChain(d) !! fs.files.Keys
    ensures r.Done? ==> d in r.fs.dirs && fs.dirs <= r.fs.dirs && r.fs.dirs - fs.dirs <= DirChain(d)
    ensures r.Done? ==> DirChain(d) <= r.fs.dirs
    ensures r.Failed? ==> r.fs == fs && r.error == CannotCreateDir(d)
  {
    if |d| == 0 || !(DirChain(d) !! fs.files.Keys) then Failed(fs, CannotCreateDir(d))
    else Done(fs.(dirs := fs.dirs + DirChain(d)))
  }

  /** One call shutil.copy(src, dir), with `dir` already an existing directory. */
  datatype CopyCall = CopyCall(src: Path, dir: Path)

  /** A copy with its destination file resolved. */
  datatype CopyOp = CopyOp(src: Path, dst: Path)

  /** shutil.copy writes into a directory under the source's basename. */
  function Resolve(c: CopyCall): (op: CopyOp)
    ensures op.src == c.src
    ensures |op.dst| >= |Basename(c.src)|
  {
    CopyOp(c.src, Join(c.dir, Basename(c.src)))
  }

  /** The resolved copy reads the same source and writes a file of the same basename. */
  lemma ResolveKeepsName(c: CopyCall)
    ensures Resolve(c).src == c.src
    ensures Basename(Resolve(c).dst) == Basename(c.src)
  {
    BasenameOfJoinBasename(c.dir, c.src);
  }

  /** shutil.copy of `op.src` onto `op.dst`. */
  function Copy(fs: FileSystem, op: CopyOp): (r: Outcome)
    ensures r.fs.dirs == fs.dirs
    ensures r.Done? <==> op.src in fs.files && op.src != op.dst && op.dst !in fs.dirs
    ensures r.Done? ==> op.dst in r.fs.files && r.fs.files[op.dst] == fs.files[op.src]
    ensures forall p :: p != op.dst ==> SameEntry(r.fs.files, fs.files, p)
    ensures r.Failed? ==> r.fs == fs
    ensures r.Failed? && op.src == op.dst && (op.src in fs.files || op.src in fs.dirs) ==> r.error == SameFile(op.src)
    ensures r.Failed? && op.src in fs.files && op.src != op.dst ==> r.error == IsADirectory(op.dst)
    ensures r.Failed? && op.src !in fs.files && op.src !in fs.dirs ==> r.error == CannotOpen(op.src)
  {
    if op.src == op.dst && (op.src in fs.files || op.src in fs.dirs) then Failed(fs, SameFile(op.src))
    else if op.src !in fs.files then Failed(fs, CannotOpen(op.src))
    else if op.dst in fs.dirs then Failed(fs, IsADirectory(op.dst))
    else Done(fs.(files := fs.files[op.dst := fs.files[op.src]]))
  }

  /** Every path a plan writes to. */
  function Targets(plan: seq<CopyOp>): set<Path> {
    set i | 0 <= i < |plan| :: plan[i].dst
  }

  /** Runs copies in order, stopping at the first error. */
  function Run(fs: FileSystem, plan: seq<CopyOp>): (r: Outcome)
    ensures r.fs.dirs == fs.dirs
    ensures forall p :: p !in Targets(plan) ==> SameEntry(r.fs.files, fs.files, p)
    ensures r.Done? ==> r.fs.files.Keys == fs.files.Keys + Targets(plan)
    decreases |plan|
  {
    if |plan| == 0 then Done(fs)
    else
      assert Targets(plan) == {plan[0].dst} + Targets(plan[1..]);
      match Copy(fs, plan[0])
      case Failed(fs1, e) => Failed(fs1, e)
      case Done(fs1) => Run(fs1, plan[1..])
  }

  /**
   The last copy to a path decides its contents: the contents of its source as
   it was before the run, provided no earlier copy wrote over that source.
   */
  lemma {:induction false} RunLastWriterWins(fs: FileSystem, plan: seq<CopyOp>, k: nat)
    requires Run(fs, plan).Done?
    requires k < |plan|
    requires forall j :: k < j < |plan| ==> plan[j].dst != plan[k].dst
    requires forall j :: 0 <= j < k ==> plan[j].dst != plan[k].src
    ensures plan[k].src in fs.files
    ensures plan[k].dst in Run(fs, plan).fs.files
    ensures Run(fs, plan).fs.files[plan[k].dst] == fs.files[plan[k].src]
    decreases |plan|
  {
    var fs1 := Copy(fs, plan[0]).fs;
    assert Run(fs, plan) == Run(fs1, plan[1..]);
    if k == 0 {
      assert plan[0].dst !in Targets(plan[1..]) by {
        forall j | 0 <= j < |plan[1..]| ensures plan[1..][j].dst != plan[0].dst {
          assert plan[1..][j] == plan[j + 1];
        }
      }
    } else {
      RunLastWriterWins(fs1, plan[1..], k - 1);
      assert plan[1..][k - 1] == plan[k];
    }
  }

  /**
   Running two plans back to back is running their concatenation: the second
   starts from whatever the first left, and a failure in the first ends the
   run with its error and its partial writes, with nothing rolled back.
   */
  lemma {:induction false} RunAppend(fs: FileSystem, a: seq<CopyOp>, b: seq<CopyOp>)
    ensures Run(fs, a + b) == match Run(fs, a)
      case Done(fs1) => Run(fs1, b)
      case Failed(fs1, e) => Failed(fs1, e)
    decreases |a|
  {
    if |a| == 0 {
      assert a + b == b;
    } else {
      assert (a + b)[0] == a[0];
      assert (a + b)[1..] == a[1..] + b;
      match Copy(fs, a[0])
      case Failed(_, _) =>
      case Done(fs1) => RunAppend(fs1, a[1..], b);
    }
  }

  /** A successful run of `a + b` first runs `a` successfully, then `b` from there. */
  lemma RunPrefixDone(fs: FileSystem, a: seq<CopyOp>, b: seq<CopyOp>)
    requires Run(fs, a + b).Done?
    ensures Run(fs, a).Done?
    ensures Run(fs, a + b) == Run(Run(fs, a).fs, b)
  {
    RunAppend(fs, a, b);
  }

  /**
   The last copy to a path decides its contents in general: the path ends up
   holding what that copy's source held just before it ran.
   */
  lemma {:induction false} RunLastCopyDecides(fs: FileSystem, plan: seq<CopyOp>, k: nat)
    requires Run(fs, plan).Done?
    requires k < |plan|
    requires forall j :: k < j < |plan| ==> plan[j].dst != plan[k].dst
    ensures Run(fs, plan[..k]).Done?
    ensures plan[k].src in Run(fs, plan[..k]).fs.files
    ensures plan[k].dst in Run(fs, plan).fs.files
    ensures Run(fs, plan).fs.files[plan[k].dst] == Run(fs, plan[..k]).fs.files[plan[k].src]
    decreases |plan|
  {
    var fs1 := Copy(fs, plan[0]).fs;
    assert Run(fs, plan) == Run(fs1, plan[1..]);
    if k == 0 {
      assert plan[..0] == [];
      assert plan[0].dst !in Targets(plan[1..]) by {
        forall j | 0 <= j < |plan[1..]| ensures plan[1..][j].dst != plan[0].dst {
          assert plan[1..][j] == plan[j + 1];
        }
      }
    } else {
      var before := plan[..k];
      assert before[0] == plan[0] && before[1..] == plan[1..][..k - 1];
      assert Run(fs, before) == Run(fs1, plan[1..][..k - 1]);
      RunLastCopyDecides(fs1, plan[1..], k - 1);
      assert plan[1..][k - 1] == plan[k];
    }
  }

  /**
   When no copy reads a path that some copy writes, the run succeeds exactly
   when every source exists and no destination is a directory.
   */
  lemma {:induction false} RunSucceedsIff(fs: FileSystem, plan: seq<CopyOp>)
    requires forall i, j :: 0 <= i < |plan| && 0 <= j < |plan| ==> plan[i].dst != plan[j].src
    ensures Run(fs, plan).Done? <==>
      forall i :: 0 <= i < |plan| ==> plan[i].src in fs.files && plan[i].dst !in fs.dirs
    decreases |plan|
  {
    if |plan| > 0 {
      var c := Copy(fs, plan[0]);
      if c.Done? {
        var fs1 := c.fs;
        RunSucceedsIff(fs1, plan[1..]);
        forall i | 0 <= i < |plan[1..]|
          ensures (plan[1..][i].src in fs1.files <==> plan[1..][i].src in fs.files)
        {
          assert plan[1..][i] == plan[i + 1];
        }
        assert forall i :: 1 <= i < |plan| ==> plan[i] == plan[1..][i - 1];
      }
    }
  }

  /** Where copy_files puts the image of `p`: the image directory joined with the image's basename. */
  function ImageDest(p: Sample, imageDir: Path): Path {
    Join(imageDir, Basename(p.image))
  }

  /** Where copy_files puts the label of `p`. */
  function LabelDest(p: Sample, labelDir: Path): Path {
    Join(labelDir, Basename(p.annotation))
  }

  /**
   The calls `for image, label in pairs` makes, in order: the image of each
   pair into the image directory, then its label into the label directory,
   then on to the next pair.
   */
  function Calls(pairs: seq<Sample>, imageDir: Path, labelDir: Path): (calls: seq<CopyCall>)
    ensures |calls| == 2 * |pairs|
    ensures forall j :: 0 <= j < |calls| ==> calls[j].dir == imageDir || calls[j].dir == labelDir
  {
    if |pairs| == 0 then []
    else [CopyCall(pairs[0].image, imageDir), CopyCall(pairs[0].annotation, labelDir)] + Calls(pairs[1..], imageDir, labelDir)
  }

  /** Two calls per pair, in pair order: call 2i copies pair i's image, call 2i + 1 its label. */
  lemma {:induction false} CallsShape(pairs: seq<Sample>, imageDir: Path, labelDir: Path)
    ensures var calls := Calls(pairs, imageDir, labelDir);
      && |calls| == 2 * |pairs|
      && forall i :: 0 <= i < |pairs| ==>
        calls[2 * i] == CopyCall(pairs[i].image, imageDir) && calls[2 * i + 1] == CopyCall(pairs[i].annotation, labelDir)
  {
    if |pairs| > 0 {
      var calls := Calls(pairs, imageDir, labelDir);
      var rest := Calls(pairs[1..], imageDir, labelDir);
      CallsShape(pairs[1..], imageDir, labelDir);
      forall i | 1 <= i < |pairs|
        ensures calls[2 * i] == CopyCall(pairs[i].image, imageDir)
        ensures calls[2 * i + 1] == CopyCall(pairs[i].annotation, labelDir)
      {
        assert pairs[1..][i - 1] == pairs[i];
        assert calls[2 * i] == rest[2 * (i - 1)];
        assert calls[2 * i + 1] == rest[2 * (i - 1) + 1];
      }
    }
  }

  /** The copies copy_files performs, with their destinations resolved. */
  function CopyPlan(pairs: seq<Sample>, imageDir: Path, labelDir: Path): (plan: seq<CopyOp>)
    ensures |plan| == 2 * |pairs|
    ensures forall j :: 0 <= j < |plan| ==> plan[j].src == Calls(pairs, imageDir, labelDir)[j].src
  {
    var calls := Calls(pairs, imageDir, labelDir);
    seq(|calls|, i requires 0 <= i < |calls| => Resolve(calls[i]))
  }

  /** Resolved, copy 2i writes pair i's image to its image destination and copy 2i + 1 its label to its label destination. */
  lemma PlanShape(pairs: seq<Sample>, imageDir: Path, labelDir: Path)
    ensures var plan := CopyPlan(pairs, imageDir, labelDir);
      && |plan| == 2 * |pairs|
      && forall i :: 0 <= i < |pairs| ==>
        && plan[2 * i] == CopyOp(pairs[i].image, ImageDest(pairs[i], imageDir))
        && plan[2 * i + 1] == CopyOp(pairs[i].annotation, LabelDest(pairs[i], labelDir))
  {
    var calls := Calls(pairs, imageDir, labelDir);
    var plan := CopyPlan(pairs, imageDir, labelDir);
    CallsShape(pairs, imageDir, labelDir);
    forall i | 0 <= i < |pairs|
      ensures plan[2 * i] == CopyOp(pairs[i].image, ImageDest(pairs[i], imageDir))
      ensures plan[2 * i + 1] == CopyOp(pairs[i].annotation, LabelDest(pairs[i], labelDir))
    {
      assert plan[2 * i] == Resolve(calls[2 * i]);
      assert plan[2 * i + 1] == Resolve(calls[2 * i + 1]);
    }
  }

  /** Every path copy_files may write: the image and label destinations of all pairs. */
  function Destinations(pairs: seq<Sample>, imageDir: Path, labelDir: Path): set<Path> {
    (set i | 0 <= i < |pairs| :: ImageDest(pairs[i], imageDir))
    + (set i | 0 <= i < |pairs| :: LabelDest(pairs[i], labelDir))
  }

  /** Copy number k of the plan belongs to pair k / 2: its image when k is even, its label when k is odd. */
  lemma PlanEntry(pairs: seq<Sample>, imageDir: Path, labelDir: Path, k: nat) returns (i: nat)
    requires k < 2 * |pairs|
    ensures i < |pairs|
    ensures |CopyPlan(pairs, imageDir, labelDir)| == 2 * |pairs|
    ensures var plan := CopyPlan(pairs, imageDir, labelDir);
      || (k == 2 * i && plan[k] == CopyOp(pairs[i].image, ImageDest(pairs[i], imageDir)))
      || (k == 2 * i + 1 && plan[k] == CopyOp(pairs[i].annotation, LabelDest(pairs[i], labelDir)))
  {
    PlanShape(pairs, imageDir, labelDir);
    i := k / 2;
  }

  lemma PlanTargets(pairs: seq<Sample>, imageDir: Path, labelDir: Path)
    ensures Targets(CopyPlan(pairs, imageDir, labelDir)) == Destinations(pairs, imageDir, labelDir)
  {
    var plan := CopyPlan(pairs, imageDir, labelDir);
    PlanShape(pairs, imageDir, labelDir);
    forall p | p in Targets(plan) ensures p in Destinations(pairs, imageDir, labelDir) {
      var k :| 0 <= k < |plan| && plan[k].dst == p;
      var i := PlanEntry(pairs, imageDir, labelDir, k);
    }
    forall i | 0 <= i < |pairs|
      ensures ImageDest(pairs[i], imageDir) in Targets(plan)
      ensures LabelDest(pairs[i], labelDir) in Targets(plan)
    {
      assert plan[2 * i].dst == ImageDest(pairs[i], imageDir);
      assert plan[2 * i + 1].dst == LabelDest(pairs[i], labelDir);
    }
  }

  /**
   copy_files(pairs, dest_image_dir, dest_label_dir): create both directories,
   then copy every image and label of `pairs` into them.
   */
  function CopyFiles(fs: FileSystem, pairs: seq<Sample>, imageDir: Path, labelDir: Path): (r: Outcome)
    ensures fs.dirs <= r.fs.dirs <= CreatedDirs(fs, imageDir, labelDir)
    ensures forall p :: p !in Destinations(pairs, imageDir, labelDir) ==> SameEntry(r.fs.files, fs.files, p)
    ensures r.Done? ==> imageDir in r.fs.dirs && labelDir in r.fs.dirs
    ensures r.Done? ==> forall i :: 0 <= i < |pairs| ==>
      ImageDest(pairs[i], imageDir) in r.fs.files && LabelDest(pairs[i], labelDir) in r.fs.files
    ensures r.Done? ==> r.fs.files.Keys == fs.files.Keys + Destinations(pairs, imageDir, labelDir)
  {
    PlanTargets(pairs, imageDir, labelDir);
    match MakeDirs(fs, imageDir)
    case Failed(fs1, e) => Failed(fs1, e)
    case Done(fs1) =>
      match MakeDirs(fs1, labelDir)
      case Failed(fs2, e) => Failed(fs2, e)
      case Done(fs2) =>
        var plan := CopyPlan(pairs, imageDir, labelDir);
        PlanShape(pairs, imageDir, labelDir);
        assert forall i :: 0 <= i < |pairs| ==> plan[2 * i].dst in Targets(plan) && plan[2 * i + 1].dst in Targets(plan);
        Run(fs2, plan)
  }

  /** The file system once both makedirs calls are through. */
  function Prepared(fs: FileSystem, imageDir: Path, labelDir: Path): (prepared: FileSystem)
    ensures prepared.files == fs.files
  {
    MakeDirs(MakeDirs(fs, imageDir).fs, labelDir).fs
  }

  /** A successful copy_files is the copy loop run on the prepared file system. */
  lemma CopyFilesIsRun(fs: FileSystem, pairs: seq<Sample>, imageDir: Path, labelDir: Path)
    ensures CopyFiles(fs, pairs, imageDir, labelDir).Done? ==>
      CopyFiles(fs, pairs, imageDir, labelDir) == Run(Prepared(fs, imageDir, labelDir), CopyPlan(pairs, imageDir, labelDir))
  {
  }

  /** The directories copy_files creates along the way. */
  function CreatedDirs(fs: FileSystem, imageDir: Path, labelDir: Path): set<Path> {
    fs.dirs + DirChain(imageDir) + DirChain(labelDir)
  }

  /**
   When no source lies where copy_files writes, it succeeds exactly when both
   directories can be created, every image and label exists, and no
   destination name is taken by a directory.
   */
  lemma CopyFilesSucceedsIff(fs: FileSystem, pairs: seq<Sample>, imageDir: Path, labelDir: Path)
    requires forall i :: 0 <= i < |pairs| ==>
      pairs[i].image !in Destinations(pairs, imageDir, labelDir)
      && pairs[i].annotation !in Destinations(pairs, imageDir, labelDir)
    ensures CopyFiles(fs, pairs, imageDir, labelDir).Done? <==>
      && |imageDir| > 0 && DirChain(imageDir) !! fs.files.Keys
      && |labelDir| > 0 && DirChain(labelDir) !! fs.files.Keys
      && (forall i :: 0 <= i < |pairs| ==> pairs[i].image in fs.files && pairs[i].annotation in fs.files)
      && Destinations(pairs, imageDir, labelDir) !! CreatedDirs(fs, imageDir, labelDir)
  {
    PlanTargets(pairs, imageDir, labelDir);
    var plan := CopyPlan(pairs, imageDir, labelDir);
    PlanShape(pairs, imageDir, labelDir);
    var dests := Destinations(pairs, imageDir, labelDir);
    if MakeDirs(fs, imageDir).Done? && MakeDirs(MakeDirs(fs, imageDir).fs, labelDir).Done? {
      var fs2 := MakeDirs(MakeDirs(fs, imageDir).fs, labelDir).fs;
      assert fs2.dirs == CreatedDirs(fs, imageDir, labelDir);
      forall k, j | 0 <= k < |plan| && 0 <= j < |plan| ensures plan[k].dst != plan[j].src {
        var m := PlanEntry(pairs, imageDir, labelDir, j);
        assert plan[k].dst in Targets(plan);
      }
      RunSucceedsIff(fs2, plan);
      if Run(fs2, plan).Done? {
        forall i | 0 <= i < |pairs|
          ensures pairs[i].image in fs.files && pairs[i].annotation in fs.files
          ensures ImageDest(pairs[i], imageDir) !in fs2.dirs && LabelDest(pairs[i], labelDir) !in fs2.dirs
        {
          assert plan[2 * i].src == pairs[i].image && plan[2 * i + 1].src == pairs[i].annotation;
        }
      } else {
        var k :| 0 <= k < |plan| && !(plan[k].src in fs2.files && plan[k].dst !in fs2.dirs);
        var m := PlanEntry(pairs, imageDir, labelDir, k);
      }
    }
  }

  /** With distinct basenames after pair k, no later copy writes where pair k's image goes. */
  lemma LaterImagesElsewhere(pairs: seq<Sample>, imageDir: Path, labelDir: Path, k: nat)
    requires k < |pairs|
    requires forall j :: k < j < |pairs| ==> Basename(pairs[j].image) != Basename(pairs[k].image)
    requires forall j :: k <= j < |pairs| ==> LabelDest(pairs[j], labelDir) != ImageDest(pairs[k], imageDir)
    ensures var plan := CopyPlan(pairs, imageDir, labelDir);
      forall j :: 2 * k < j < |plan| ==> plan[j].dst != plan[2 * k].dst
  {
    var plan := CopyPlan(pairs, imageDir, labelDir);
    PlanShape(pairs, imageDir, labelDir);
    forall j | 2 * k < j < |plan| ensures plan[j].dst != plan[2 * k].dst {
      var m := PlanEntry(pairs, imageDir, labelDir, j);
      if j == 2 * m {
        BasenameIsLastComponent(pairs[m].image);
        BasenameIsLastComponent(pairs[k].image);
        JoinInjective(imageDir, Basename(pairs[m].image), Basename(pairs[k].image));
      }
    }
  }

  /** With distinct basenames after pair k, no later copy writes where pair k's label goes. */
  lemma LaterLabelsElsewhere(pairs: seq<Sample>, imageDir: Path, labelDir: Path, k: nat)
    requires k < |pairs|
    requires forall j :: k < j < |pairs| ==> Basename(pairs[j].annotation) != Basename(pairs[k].annotation)
    requires forall j :: k < j < |pairs| ==> ImageDest(pairs[j], imageDir) != LabelDest(pairs[k], labelDir)
    ensures var plan := CopyPlan(pairs, imageDir, labelDir);
      forall j :: 2 * k + 1 < j < |plan| ==> plan[j].dst != plan[2 * k + 1].dst
  {
    var plan := CopyPlan(pairs, imageDir, labelDir);
    PlanShape(pairs, imageDir, labelDir);
    forall j | 2 * k + 1 < j < |plan| ensures plan[j].dst != plan[2 * k + 1].dst {
      var m := PlanEntry(pairs, imageDir, labelDir, j);
      if j == 2 * m + 1 {
        BasenameIsLastComponent(pairs[m].annotation);
        BasenameIsLastComponent(pairs[k].annotation);
        JoinInjective(labelDir, Basename(pairs[m].annotation), Basename(pairs[k].annotation));
      }
    }
  }

  /**
   No copy before pair k's image copy (or, with `pastImage`, before its label
   copy) writes to `src`.
   */
  lemma EarlierCopiesAvoid(pairs: seq<Sample>, imageDir: Path, labelDir: Path, k: nat, pastImage: bool, src: Path)
    requires k < |pairs|
    requires forall j :: 0 <= j < k ==> ImageDest(pairs[j], imageDir) != src && LabelDest(pairs[j], labelDir) != src
    requires pastImage ==> ImageDest(pairs[k], imageDir) != src
    ensures var plan := CopyPlan(pairs, imageDir, labelDir);
      var c := if pastImage then 2 * k + 1 else 2 * k;
      c < |plan| && forall j :: 0 <= j < c ==> plan[j].dst != src
  {
    var plan := CopyPlan(pairs, imageDir, labelDir);
    var c := if pastImage then 2 * k + 1 else 2 * k;
    PlanShape(pairs, imageDir, labelDir);
    forall j | 0 <= j < c ensures plan[j].dst != src {
      var m := PlanEntry(pairs, imageDir, labelDir, j);
      if m == k {
        assert pastImage && plan[j].dst == ImageDest(pairs[k], imageDir);
      } else {
        assert m < k;
      }
    }
  }

  /** Within the copy loop alone: pair k's image destination ends up with pair k's image. */
  lemma PlanImageWins(fs: FileSystem, pairs: seq<Sample>, imageDir: Path, labelDir: Path, k: nat)
    requires Run(fs, CopyPlan(pairs, imageDir, labelDir)).Done?
    requires k < |pairs|
    requires forall j :: k < j < |pairs| ==> Basename(pairs[j].image) != Basename(pairs[k].image)
    requires forall j :: k <= j < |pairs| ==> LabelDest(pairs[j], labelDir) != ImageDest(pairs[k], imageDir)
    requires forall j :: 0 <= j < k ==>
      ImageDest(pairs[j], imageDir) != pairs[k].image && LabelDest(pairs[j], labelDir) != pairs[k].image
    ensures pairs[k].image in fs.files
    ensures var files := Run(fs, CopyPlan(pairs, imageDir, labelDir)).fs.files;
      ImageDest(pairs[k], imageDir) in files && files[ImageDest(pairs[k], imageDir)] == fs.files[pairs[k].image]
  {
    var plan := CopyPlan(pairs, imageDir, labelDir);
    PlanShape(pairs, imageDir, labelDir);
    assert plan[2 * k] == CopyOp(pairs[k].image, ImageDest(pairs[k], imageDir));
    LaterImagesElsewhere(pairs, imageDir, labelDir, k);
    EarlierCopiesAvoid(pairs, imageDir, labelDir, k, false, pairs[k].image);
    RunLastWriterWins(fs, plan, 2 * k);
  }

  /** Within the copy loop alone: pair k's label destination ends up with pair k's label. */
  lemma PlanLabelWins(fs: FileSystem, pairs: seq<Sample>, imageDir: Path, labelDir: Path, k: nat)
    requires Run(fs, CopyPlan(pairs, imageDir, labelDir)).Done?
    requires k < |pairs|
    requires forall j :: k < j < |pairs| ==> Basename(pairs[j].annotation) != Basename(pairs[k].annotation)
    requires forall j :: k < j < |pairs| ==> ImageDest(pairs[j], imageDir) != LabelDest(pairs[k], labelDir)
    requires forall j :: 0 <= j < k ==>
      ImageDest(pairs[j], imageDir) != pairs[k].annotation && LabelDest(pairs[j], labelDir) != pairs[k].annotation
    requires ImageDest(pairs[k], imageDir) != pairs[k].annotation
    ensures pairs[k].annotation in fs.files
    ensures var files := Run(fs, CopyPlan(pairs, imageDir, labelDir)).fs.files;
      LabelDest(pairs[k], labelDir) in files && files[LabelDest(pairs[k], labelDir)] == fs.files[pairs[k].annotation]
  {
    var plan := CopyPlan(pairs, imageDir, labelDir);
    PlanShape(pairs, imageDir, labelDir);
    assert plan[2 * k + 1] == CopyOp(pairs[k].annotation, LabelDest(pairs[k], labelDir));
    LaterLabelsElsewhere(pairs, imageDir, labelDir, k);
    EarlierCopiesAvoid(pairs, imageDir, labelDir, k, true, pairs[k].annotation);
    RunLastWriterWins(fs, plan, 2 * k + 1);
  }

  /**
   A later pair whose image has the same basename overwrites an earlier one:
   the image destination of pair k holds pair k's image when no later pair
   writes there, no label lands there, and no earlier copy wrote over that image.
   */
  lemma LaterImageWins(fs: FileSystem, pairs: seq<Sample>, imageDir: Path, labelDir: Path, k: nat)
    requires k < |pairs|
    requires forall j :: k < j < |pairs| ==> Basename(pairs[j].image) != Basename(pairs[k].image)
    requires forall j :: k <= j < |pairs| ==> LabelDest(pairs[j], labelDir) != ImageDest(pairs[k], imageDir)
    requires forall j :: 0 <= j < k ==>
      ImageDest(pairs[j], imageDir) != pairs[k].image && LabelDest(pairs[j], labelDir) != pairs[k].image
    ensures CopyFiles(fs, pairs, imageDir, labelDir).Done? ==>
      && pairs[k].image in fs.files
      && ImageDest(pairs[k], imageDir) in CopyFiles(fs, pairs, imageDir, labelDir).fs.files
      && CopyFiles(fs, pairs, imageDir, labelDir).fs.files[ImageDest(pairs[k], imageDir)] == fs.files[pairs[k].image]
  {
    if CopyFiles(fs, pairs, imageDir, labelDir).Done? {
      CopyFilesIsRun(fs, pairs, imageDir, labelDir);
      PlanImageWins(Prepared(fs, imageDir, labelDir), pairs, imageDir, labelDir, k);
    }
  }

  /** The same for labels: the label destination of pair k holds pair k's label. */
  lemma LaterLabelWins(fs: FileSystem, pairs: seq<Sample>, imageDir: Path, labelDir: Path, k: nat)
    requires k < |pairs|
    requires forall j :: k < j < |pairs| ==> Basename(pairs[j].annotation) != Basename(pairs[k].annotation)
    requires forall j :: k < j < |pairs| ==> ImageDest(pairs[j], imageDir) != LabelDest(pairs[k], labelDir)
    requires forall j :: 0 <= j < k ==>
      ImageDest(pairs[j], imageDir) != pairs[k].annotation && LabelDest(pairs[j], labelDir) != pairs[k].annotation
    requires ImageDest(pairs[k], imageDir) != pairs[k].annotation
    ensures CopyFiles(fs, pairs, imageDir, labelDir).Done? ==>
      && pairs[k].annotation in fs.files
      && LabelDest(pairs[k], labelDir) in CopyFiles(fs, pairs, imageDir, labelDir).fs.files
      && CopyFiles(fs, pairs, imageDir, labelDir).fs.files[LabelDest(pairs[k], labelDir)] == fs.files[pairs[k].annotation]
  {
    if CopyFiles(fs, pairs, imageDir, labelDir).Done? {
      CopyFilesIsRun(fs, pairs, imageDir, labelDir);
      PlanLabelWins(Prepared(fs, imageDir, labelDir), pairs, imageDir, labelDir, k);
    }
  }
}

=== FILE: paths.dfy ===
/**
 POSIX path strings as the split-and-copy step handles them: the basename of a
 path, joining a directory and a file name, and matching a directory listing
 against a glob pattern made of a directory and `*<ext>`.

 Paths are plain strings and are compared as strings: no normalisation of
 `.`, `..`, repeated slashes or symbolic links.
 */
module Paths {

  type Path = string

  predicate HasNoSlash(s: string) {
    forall i :: 0 <= i < |s| ==> s[i] != '/'
  }

  predicate EndsWith(s: string, suffix: string) {
    |suffix| <= |s| && s[|s| - |suffix|..] == suffix
  }

  /** Index at which the basename of `p` starts: one past its last '/', or 0 when it has none. */
  function NameStart(p: Path): (k: nat)
    ensures k <= |p|
  {
    if |p| == 0 then 0
    else if p[|p| - 1] == '/' then |p|
    else NameStart(p[..|p| - 1])
  }

  /** NameStart finds the last '/': the character before it is '/' and none follows it. */
  lemma {:induction false} NameStartAfterLastSlash(p: Path)
    ensures NameStart(p) > 0 ==> p[NameStart(p) - 1] == '/'
    ensures HasNoSlash(p[NameStart(p)..])
  {
    if |p| > 0 && p[|p| - 1] != '/' {
      var q := p[..|p| - 1];
      NameStartAfterLastSlash(q);
      assert p[NameStart(p)..] == q[NameStart(q)..] + [p[|p| - 1]];
    }
  }

  /** posixpath.basename: everything after the last '/'. */
  function Basename(p: Path): (b: string)
    ensures |b| <= |p|
  {
    p[NameStart(p)..]
  }

  /**
   The basename is the last component of the path: it holds no '/', it is a
   suffix of the path, and it is preceded by '/' unless it is the whole path.
   */
  lemma BasenameIsLastComponent(p: Path)
    ensures HasNoSlash(Basename(p))
    ensures EndsWith(p, Basename(p))
    ensures |Basename(p)| < |p| ==> p[|p| - |Basename(p)| - 1] == '/'
  {
    NameStartAfterLastSlash(p);
  }

  /** A slash-free suffix preceded by '/' (or by nothing) is the basename. */
  lemma {:induction false} SlashFreeSuffixIsBasename(p: Path, n: string)
    requires HasNoSlash(n)
    requires EndsWith(p, n)
    requires |n| < |p| ==> p[|p| - |n| - 1] == '/'
    ensures Basename(p) == n
  {
    var b := Basename(p);
    BasenameIsLastComponent(p);
    assert |b| == |n|;
    assert b == p[|p| - |b|..];
  }

  /** posixpath.join of a directory and one further component. */
  function Join(dir: Path, name: string): (r: Path)
    ensures |r| >= |name|
  {
    if |name| > 0 && name[0] == '/' then name
    else if |dir| == 0 || dir[|dir| - 1] == '/' then dir + name
    else dir + "/" + name
  }

  /**
   A slash-free name joined onto a directory ends the result and is preceded
   by exactly one '/', unless the directory was empty.
   */
  lemma JoinEndsWithName(dir: Path, name: string)
    requires HasNoSlash(name)
    ensures var r := Join(dir, name);
      && EndsWith(r, name)
      && (|name| < |r| ==> r[|r| - |name| - 1] == '/')
      && (|dir| == 0 <==> r == name)
  {
  }

  /** The basename of a joined path is the name that was joined on. */
  lemma BasenameOfJoin(dir: Path, name: string)
    requires HasNoSlash(name)
    ensures Basename(Join(dir, name)) == name
  {
    JoinEndsWithName(dir, name);
    SlashFreeSuffixIsBasename(Join(dir, name), name);
  }

  /** Two slash-free names joined onto the same directory give the same path only when they are equal. */
  lemma JoinInjective(dir: Path, a: string, b: string)
    requires HasNoSlash(a) && HasNoSlash(b)
    ensures Join(dir, a) == Join(dir, b) <==> a == b
  {
    BasenameOfJoin(dir, a);
    BasenameOfJoin(dir, b);
  }

  /** Joining a directory with the basename of a path gives a path whose basename is unchanged. */
  lemma BasenameOfJoinBasename(dir: Path, p: Path)
    ensures Basename(Join(dir, Basename(p))) == Basename(p)
  {
    BasenameIsLastComponent(p);
    BasenameOfJoin(dir, Basename(p));
  }

  /** A name whose first character is '.' is hidden and not matched by a leading `*`. */
  predicate IsHidden(name: string) {
    |name| > 0 && name[0] == '.'
  }

  /**
   fnmatch of `name` against the pattern `*<ext>`, with glob's hidden-name rule.
   `ext` is compared literally, which agrees with fnmatch only when it holds no
   `*`, `?` or `[`; true of the two extensions used, ".jpg" and ".txt".
   */
  predicate MatchesStarExt(name: string, ext: string) {
    !IsHidden(name) && EndsWith(name, ext)
  }

  /**
   glob of the directory `dir` with the name pattern `*<ext>`, over `entries`, the names the operating system lists
   for `dir`, in the order it lists them (glob does not sort). A missing
   directory lists nothing. Each match is reported as `dir + "/" + name`,
   exactly as the pattern string spells it.
   */
  function Glob(dir: Path, entries: seq<string>, ext: string): (r: seq<Path>)
    ensures |r| <= |entries|
    ensures forall i :: 0 <= i < |entries| && MatchesStarExt(entries[i], ext) ==> dir + "/" + entries[i] in r
    ensures forall p :: p in r ==> exists i :: 0 <= i < |entries| && MatchesStarExt(entries[i], ext) && p == dir + "/" + entries[i]
  {
    if |entries| == 0 then []
    else
      var rest := Glob(dir, entries[1..], ext);
      if MatchesStarExt(entries[0], ext) then [dir + "/" + entries[0]] + rest else rest
  }

  /** A listing of one name yields that name's path when it matches, and nothing otherwise. */
  lemma GlobOne(dir: Path, name: string, ext: string)
    ensures Glob(dir, [name], ext) == if MatchesStarExt(name, ext) then [dir + "/" + name] else []
  {
  }

  /**
   glob keeps the listing order: globbing a listing in two parts and
   concatenating gives the glob of the whole, so matches are neither
   reordered nor repeated.
   */
  lemma {:induction false} GlobAppend(dir: Path, a: seq<string>, b: seq<string>, ext: string)
    ensures Glob(dir, a + b, ext) == Glob(dir, a, ext) + Glob(dir, b, ext)
  {
    if |a| > 0 {
      assert (a + b)[1..] == a[1..] + b;
      GlobAppend(dir, a[1..], b, ext);
    } else {
      assert a + b == b;
    }
  }
}

=== FILE: splitting.dfy ===
/**
 The train/val/test split of an annotated image pool (`get_split_data`).

 Image paths and label paths are paired by position, the pairs are shuffled,
 and the shuffled list is cut into three consecutive slices whose cut points
 come from truncating the pool size times the split ratios.
 */
module Splitting {
  import opened Paths

  /** An image file and the label file paired with it. */
  datatype Sample = Sample(image: Path, annotation: Path)

  /** The three consecutive slices handed to the trainer. */
  datatype Splits = Splits(train: seq<Sample>, val: seq<Sample>, test: seq<Sample>)

  datatype Fraction = Fraction(num: nat, den: nat)

  type Ratio = f: Fraction | f.den > 0 witness Fraction(0, 1)

  // The split ratios are 0.6 for train, 0.2 for val and 0.2 for test. The source
  // holds them as floating-point numbers and multiplies them by the pool size; the
  // model uses the exact fractions, so int(n * 0.6) becomes n * 3 / 5.
  const TrainRatio: Ratio := Fraction(3, 5)
  const ValRatio: Ratio := Fraction(1, 5)
  // The split itself never reads the test ratio: test takes whatever is left.
  const TestRatio: Ratio := Fraction(1, 5)

  /** The three ratios share a denominator and add up to one whole. */
  lemma RatiosSumToOne()
    ensures TrainRatio.den == ValRatio.den == TestRatio.den
    ensures TrainRatio.num + ValRatio.num + TestRatio.num == TrainRatio.den
  {
  }

  function Min(a: nat, b: nat): nat {
    if a <= b then a else b
  }

  /** int(n * r): the share of `n` items given by `r`, rounded down (never negative here). */
  function Truncate(n: nat, r: Ratio): (k: nat)
    ensures k * r.den <= n * r.num < (k + 1) * r.den
  {
    n * r.num / r.den
  }

  /** Size of the train slice: train_idx. */
  function TrainCount(n: nat): nat {
    Truncate(n, TrainRatio)
  }

  /** Size of the val slice: val_idx - train_idx. */
  function ValCount(n: nat): nat {
    Truncate(n, ValRatio)
  }

  /** list(zip(images, labels)): pairs by position, stopping at the shorter list. */
  function Zip(images: seq<Path>, labels: seq<Path>): (r: seq<Sample>)
    ensures |r| == Min(|images|, |labels|)
    ensures forall i :: 0 <= i < |r| ==> r[i] == Sample(images[i], labels[i])
  {
    if |images| == 0 || |labels| == 0 then []
    else [Sample(images[0], labels[0])] + Zip(images[1..], labels[1..])
  }

  function Images(pairs: seq<Sample>): (r: seq<Path>)
    ensures |r| == |pairs|
    ensures forall i :: 0 <= i < |r| ==> r[i] == pairs[i].image
  {
    if |pairs| == 0 then [] else [pairs[0].image] + Images(pairs[1..])
  }

  function Labels(pairs: seq<Sample>): (r: seq<Path>)
    ensures |r| == |pairs|
    ensures forall i :: 0 <= i < |r| ==> r[i] == pairs[i].annotation
  {
    if |pairs| == 0 then [] else [pairs[0].annotation] + Labels(pairs[1..])
  }

  /** Unzipping the pairs gives back both inputs cut to the shorter length: extra files are dropped, nothing else. */
  lemma UnzipZip(images: seq<Path>, labels: seq<Path>)
    ensures var n := Min(|images|, |labels|);
      Images(Zip(images, labels)) == images[..n] && Labels(Zip(images, labels)) == labels[..n]
  {
  }

  /** Pairing never duplicates: distinct image paths give distinct samples. */
  lemma ZipDistinct(images: seq<Path>, labels: seq<Path>)
    requires forall i, j :: 0 <= i < j < |images| ==> images[i] != images[j]
    ensures var z := Zip(images, labels); forall i, j :: 0 <= i < j < |z| ==> z[i] != z[j]
  {
  }

  /**
   random.shuffle: CPython's Fisher-Yates pass, swapping position i with a
   position j in [0, i] for i from the last index down to 1. The random index
   is an arbitrary choice, so the result is some permutation of the input.
   */
  method Shuffle<T>(xs: seq<T>) returns (r: seq<T>)
    ensures |r| == |xs|
    ensures multiset(r) == multiset(xs)
    ensures |xs| <= 1 ==> r == xs
  {
    r := xs;
    var i := |r| - 1;
    while i >= 1
      invariant i < |r| == |xs|
      invariant multiset(r) == multiset(xs)
      invariant |xs| <= 1 ==> r == xs
    {
      var j :| 0 <= j <= i;
      r := r[i := r[j]][j := r[i]];
      i := i - 1;
    }
  }

  /**
   The three slices data_pairs[:train_idx], data_pairs[train_idx:val_idx] and
   data_pairs[val_idx:], with train_idx = int(n * 0.6) and
   val_idx = train_idx + int(n * 0.2).
   */
  function Partition(pairs: seq<Sample>): (s: Splits)
    ensures s.train + s.val + s.test == pairs
    ensures |s.train| == TrainCount(|pairs|)
    ensures |s.val| == ValCount(|pairs|)
    ensures |s.test| == |pairs| - TrainCount(|pairs|) - ValCount(|pairs|)
  {
    var n := |pairs|;
    CutPointsInRange(n);
    var trainIdx := TrainCount(n);
    var valIdx := trainIdx + ValCount(n);
    assert pairs == pairs[..trainIdx] + pairs[trainIdx..valIdx] + pairs[valIdx..];
    Splits(pairs[..trainIdx], pairs[trainIdx..valIdx], pairs[valIdx..])
  }

  /** 0 <= train_idx <= val_idx <= n, so all three slices are well defined. */
  lemma CutPointsInRange(n: nat)
    ensures TrainCount(n) + ValCount(n) <= n
  {
  }

  /** The sizes and the concatenation determine the split: Partition is the only split with them. */
  lemma PartitionUnique(pairs: seq<Sample>, s: Splits)
    requires s.train + s.val + s.test == pairs
    requires |s.train| == TrainCount(|pairs|) && |s.val| == ValCount(|pairs|)
    ensures s == Partition(pairs)
  {
  }

  /** Counted with multiplicity, every pair lands in exactly one slice and nothing else does. */
  lemma PartitionCounts(pairs: seq<Sample>, x: Sample)
    ensures var s := Partition(pairs);
      multiset(s.train)[x] + multiset(s.val)[x] + multiset(s.test)[x] == multiset(pairs)[x]
  {
  }

  /** With distinct pairs, each pair is in exactly one of the three slices. */
  lemma PartitionDisjoint(pairs: seq<Sample>, x: Sample)
    requires forall i, j :: 0 <= i < j < |pairs| ==> pairs[i] != pairs[j]
    ensures var s := Partition(pairs);
      && (x in pairs <==> x in s.train || x in s.val || x in s.test)
      && !(x in s.train && x in s.val)
      && !(x in s.train && x in s.test)
      && !(x in s.val && x in s.test)
  {
  }

  /**
   Which slices are empty: train is empty exactly for n <= 1, val exactly for
   n < 5, and test only for the empty pool.
   */
  lemma SliceOccupancy(n: nat)
    ensures TrainCount(n) == 0 <==> n <= 1
    ensures ValCount(n) == 0 <==> n < 5
    ensures n - TrainCount(n) - ValCount(n) == 0 <==> n == 0
  {
  }

  /**
   The truncation remainder goes to test: test is never smaller than its own
   ratio's share and exceeds it by at most two.
   */
  lemma TestTakesRemainder(n: nat)
    ensures Truncate(n, TestRatio) <= n - TrainCount(n) - ValCount(n) <= Truncate(n, TestRatio) + 2
  {
  }

  /** An empty pool gives three empty slices; it is not an error. */
  lemma EmptyPool()
    ensures Partition([]) == Splits([], [], [])
  {
  }

  /** A single pair goes to test; train and val are empty. */
  lemma SinglePair(x: Sample)
    ensures Partition([x]) == Splits([], [], [x])
  {
  }

  /** Ten pairs split 6 / 2 / 2, train first, in list order. */
  lemma TenPairs(pairs: seq<Sample>)
    requires |pairs| == 10
    ensures var s := Partition(pairs);
      s.train == pairs[..6] && s.val == pairs[6..8] && s.test == pairs[8..]
  {
  }

  /** The pairs get_split_data shuffles: the positional pairing of the `*.jpg` and `*.txt` glob results. */
  function Pool(imagesDir: Path, imageEntries: seq<string>, annotationsDir: Path, labelEntries: seq<string>): (pool: seq<Sample>)
    ensures |pool| <= |imageEntries| && |pool| <= |labelEntries|
  {
    Zip(Glob(imagesDir, imageEntries, ".jpg"), Glob(annotationsDir, labelEntries, ".txt"))
  }

  /**
   Every pair of the pool is a listed `*.jpg` image of the image directory and
   a listed `*.txt` label of the annotation directory.
   */
  lemma PoolMatchesPatterns(imagesDir: Path, imageEntries: seq<string>, annotationsDir: Path, labelEntries: seq<string>, k: nat)
    requires k < |Pool(imagesDir, imageEntries, annotationsDir, labelEntries)|
    ensures var x := Pool(imagesDir, imageEntries, annotationsDir, labelEntries)[k];
      && (exists i :: 0 <= i < |imageEntries| && MatchesStarExt(imageEntries[i], ".jpg") && x.image == imagesDir + "/" + imageEntries[i])
      && (exists i :: 0 <= i < |labelEntries| && MatchesStarExt(labelEntries[i], ".txt") && x.annotation == annotationsDir + "/" + labelEntries[i])
  {
    var images := Glob(imagesDir, imageEntries, ".jpg");
    var labels := Glob(annotationsDir, labelEntries, ".txt");
    assert images[k] in images && labels[k] in labels;
  }

  /**
   get_split_data over the two directory listings: glob each directory for
   `*.jpg` and `*.txt`, zip the matches by position, shuffle the pairs, and
   cut them into train, val and test.
   */
  method GetSplitData(imagesDir: Path, imageEntries: seq<string>, annotationsDir: Path, labelEntries: seq<string>)
    returns (s: Splits)
    ensures multiset(s.train + s.val + s.test) == multiset(Pool(imagesDir, imageEntries, annotationsDir, labelEntries))
    ensures |s.train| == TrainCount(|Pool(imagesDir, imageEntries, annotationsDir, labelEntries)|)
    ensures |s.val| == ValCount(|Pool(imagesDir, imageEntries, annotationsDir, labelEntries)|)
    ensures |s.train| + |s.val| + |s.test| == |Pool(imagesDir, imageEntries, annotationsDir, labelEntries)|
    ensures |Pool(imagesDir, imageEntries, annotationsDir, labelEntries)| <= 1 ==>
      s == Splits([], [], Pool(imagesDir, imageEntries, annotationsDir, labelEntries))
  {
    var allImages := Glob(imagesDir, imageEntries, ".jpg");
    var allLabels := Glob(annotationsDir, labelEntries, ".txt");
    var dataPairs := Zip(allImages, allLabels);
    dataPairs := Shuffle(dataPairs);
    s := Partition(dataPairs);
    if |dataPairs| == 0 {
      EmptyPool();
    } else if |dataPairs| == 1 {
      SinglePair(dataPairs[0]);
      assert dataPairs == [dataPairs[0]];
    }
  }
}
